=== FILE: README.md ===
# bubble-coin-hub client logic, modelled in Dafny

The application is a rewards web client: users sign in, hold a coin balance,
see a monthly leaderboard, buy redemption keys in a shop, and administrators
adjust balances and privilege flags. Almost all of it is view code over a
hosted backend. This project models the small pieces of deterministic logic
the client itself performs, as immutable datatypes and pure functions:

- `RedemptionKey` (redemption_key.dfy): the shop's key generator, sixteen
  symbols over `A`-`Z0`-`9` in four hyphen-separated groups, with its
  random draws supplied as input, plus an inverse parser.
- `Purchase` (purchase.dfy): the contact-phone validator and the purchase
  handler that issues a key only after a successful debit.
- `AdminUsers` (admin_users.dfy): the admin table built by joining profiles,
  auth accounts and wallets, and the local updates after a coin grant or a
  privilege toggle.
- `Leaderboard` (leaderboard.dfy): ranking of the fetched rows, the
  username fallback, the signed-in user's entry, podium icons and styling.
- `Session` (session.dfy): the session container (`user`, `loading`, the
  persisted copy) with login, signup, logout and coin adjustment as state
  transitions.
- `AuthForms` (auth_forms.dfy): the login and signup validation rules and
  the switch between the two forms.
- `Common` (common.dfy): Option, first-match search (`Array.find`), the
  UTF-16 length JavaScript reports, and `substring(0, n)`.

Backend calls (queries, RPCs, the auth user listing, `spendCoins`) enter the
model as their outcomes: rows or `None` for a failed query, a boolean or an
outcome datatype for a write. `Math.random` enters as caller-supplied draws
(key symbols) or an id suffix (session ids). The email-format check of the
validation library is the function parameter `isEmail`.

In src/contexts/AuthContext.tsx, `login` and `signup` are local mocks that
always build a user, and `updateUserCoins` adjusts the local copy with no
remote call. The login dialog awaits the auth call through a `useAuth` hook
that is not part of this model, so its outcome (resolved or rejected) is an
input of `AuthForms.SubmitLogin` and `AuthForms.SubmitSignup`; the resolved
branch applies the `Session` transitions.

Details of JavaScript semantics the model keeps:
- `x || default` treats the empty string as missing: a profile username of
  `""` gets the leaderboard fallback name, a missing or empty email becomes
  `""`, and an empty selected-user id makes a coin grant a no-op.
- Length minimums count UTF-16 code units (`Common.Utf16Length`), so a
  character outside the Basic Multilingual Plane counts twice.
- `\s` in the phone pattern is the ECMAScript whitespace and line-terminator
  set, not just space and tab.
- The validation library reports every failing field check, and the
  signup confirmation check runs even when a field check failed.

## Model

| member | source | states |
|---|---|---|
| RedemptionKey.KeyAfter | src/components/Shop/Purchase.tsx:84-89 | after n loop iterations the key has length n plus one hyphen per completed group of four before the last symbol |
| RedemptionKey.KeyAfterSymbols | src/components/Shop/Purchase.tsx:84-89 | symbol i of the draws sits at output position i + i/4 and is the alphabet character it indexes |
| RedemptionKey.KeyAfterHyphens | src/components/Shop/Purchase.tsx:84-87 | a character of a partial key is a hyphen iff its position is 4 modulo 5 |
| RedemptionKey.AlphabetIndex | src/components/Shop/Purchase.tsx:80 | the alphabet has 36 symbols, none a hyphen, and each character's index recovers it |
| RedemptionKey.GenerateKey | src/components/Shop/Purchase.tsx:79-92 | a generated key has length 19 and the XXXX-XXXX-XXXX-XXXX shape over A-Z0-9 |
| RedemptionKey.FullKeyShape | src/components/Shop/Purchase.tsx:84-91 | the key built by all sixteen loop iterations has length 19, hyphens exactly at positions 4, 9 and 14, draw i's character at position i + i/4, and every other character from A-Z0-9 |
| RedemptionKey.StripKeyAfter | src/components/Shop/Purchase.tsx:84-89 | removing hyphens from a partial key leaves the symbols drawn so far, in order |
| RedemptionKey.StripGeneratedKey | src/components/Shop/Purchase.tsx:84-89 | removing hyphens from a key yields exactly the 16 chosen symbols in selection order |
| RedemptionKey.ParseKey | src/components/Shop/Purchase.tsx:79-92 | a string parses to draws iff it has the XXXX-XXXX-XXXX-XXXX shape over the alphabet |
| RedemptionKey.ParseGeneratedKey | src/components/Shop/Purchase.tsx:79-92 | parsing a generated key returns the draws that produced it |
| RedemptionKey.GenerateParsedKey | src/components/Shop/Purchase.tsx:79-92 | every well-formed key is generated by the draws it parses to, so every key of that shape is reachable |
| RedemptionKey.GenerateKeyInjective | src/components/Shop/Purchase.tsx:79-92 | different draws give different keys |
| Purchase.MatchesPhonePattern | src/components/Shop/Purchase.tsx:30 | a matching string is non-empty, a leading + is followed by at least one more character, and every other character is a digit, whitespace, -, ( or ) |
| Purchase.PhoneIssues | src/components/Shop/Purchase.tsx:27-31 | the length issue is reported iff the number is under 10 UTF-16 units, the format issue iff the pattern fails |
| Purchase.PatternIsSingleUnits | src/components/Shop/Purchase.tsx:30 | every string the phone pattern matches has a UTF-16 length equal to its character count |
| Purchase.ValidPhone | src/components/Shop/Purchase.tsx:27-31 | a phone number is accepted iff it has at least 10 characters and is an optional + followed by one or more digits, whitespace, -, ( or ) |
| Purchase.MatchPhone | src/components/Shop/Purchase.tsx:30 | a left-to-right scan accepts exactly the strings the declarative pattern describes |
| Purchase.HandlePurchase | src/components/Shop/Purchase.tsx:48-77 | the key is set iff the debit succeeded; otherwise the shown key is unchanged; submitting is false afterwards on success, decline and error |
| Purchase.Submit | src/components/Shop/Purchase.tsx:41-48 | the handler runs iff the phone number validates; otherwise the issues are returned and nothing is debited; a submitted number shows the generated key iff the debit succeeded, keeps the shown key otherwise, and raises the success or failure toast as the handler does |
| Purchase.KeyOnlyOnDebit | src/components/Shop/Purchase.tsx:53-58 | from a fresh dialog a key appears iff the phone is valid and the debit succeeded, and that key parses back to its draws |
| AdminUsers.EmailFor | src/pages/Admin.tsx:81-82 | a profile with no matching auth account gets the empty email; otherwise the first matching account supplies its email, or "" when it has none |
| AdminUsers.BalanceFor | src/pages/Admin.tsx:83 | a profile with no wallet gets balance 0; a non-zero balance comes from a wallet of that user |
| AdminUsers.MergeUsers | src/pages/Admin.tsx:80-93 | one row per profile, in profile order, with its id and username, null flags read as false |
| AdminUsers.MergeDefaults | src/pages/Admin.tsx:81-83 | missing account gives "", missing wallet gives 0, otherwise the first matching record supplies email and balance, a first matching account without an email giving "" |
| AdminUsers.Privileged | src/pages/Admin.tsx:50 | a signed-out viewer is never privileged; an owner always is |
| AdminUsers.FetchUsers | src/pages/Admin.tsx:49-105 | an unprivileged viewer changes nothing; a failed profile query keeps the table; otherwise the table becomes the join of the profiles with the accounts and wallets, a failed account or wallet query contributing no records |
| AdminUsers.CreditRows | src/pages/Admin.tsx:128-134 | rows with the target id gain the amount; every other row is unchanged |
| AdminUsers.GrantReady | src/pages/Admin.tsx:112 | a grant proceeds only with a non-empty selected id, and never with amount 0 |
| AdminUsers.AddCoins | src/pages/Admin.tsx:111-145 | no-op without a selection or with amount 0; RPC error keeps the table; success credits the selected user's rows by the amount, leaves every other row and field unchanged, and resets the amount to 0 |
| AdminUsers.CreditRowsTotal | src/pages/Admin.tsx:128-134 | crediting moves the table's total balance by the amount times the number of matching rows |
| AdminUsers.CountIdUnique | src/pages/Admin.tsx:80-93 | with unique ids a listed id occurs exactly once |
| AdminUsers.AddCoinsTotal | src/pages/Admin.tsx:127-136 | a successful grant raises the total balance by exactly the amount when the user is listed |
| AdminUsers.FlipAdmin | src/pages/Admin.tsx:163-169 | only rows with the target id change, and only in their admin flag |
| AdminUsers.FlipOwner | src/pages/Admin.tsx:205-211 | only rows with the target id change, and only in their owner flag |
| AdminUsers.ToggleAdmin | src/pages/Admin.tsx:147-179 | success flips the target's admin flag; an update error keeps the table |
| AdminUsers.ToggleOwner | src/pages/Admin.tsx:181-221 | a non-owner actor is refused and the table is unchanged; otherwise as ToggleAdmin on the owner flag |
| AdminUsers.ToggleAdminTwice | src/pages/Admin.tsx:162-169 | toggling admin twice restores the original table |
| AdminUsers.ToggleOwnerTwice | src/pages/Admin.tsx:204-211 | toggling owner twice restores the original table |
| AdminUsers.FlipAdminCount | src/pages/Admin.tsx:163-169 | flipping one listed user changes the number of administrators by exactly one |
| Leaderboard.DisplayName | src/components/Leaderboard/Leaderboard.tsx:66 | a present non-empty username is kept; otherwise "User " followed by the first 8 characters of the id |
| Leaderboard.FormatRows | src/components/Leaderboard/Leaderboard.tsx:64-69 | same length and order as the rows, points copied, entry i ranked i+1 |
| Leaderboard.FormatRowsRanks | src/components/Leaderboard/Leaderboard.tsx:57-69 | ranks are exactly 1..n and strictly increasing; the rows are sorted by points descending iff the entries are |
| Leaderboard.ApplyFetch | src/components/Leaderboard/Leaderboard.tsx:60-79 | fetched rows replace the list with their formatted entries; an error or missing data keeps it |
| Leaderboard.UserRank | src/components/Leaderboard/Leaderboard.tsx:108-115 | null without a user or without a match; otherwise the first entry whose id is the user's |
| Leaderboard.UserRankOfFormatted | src/components/Leaderboard/Leaderboard.tsx:108-115 | on a formatted list the user's entry is ranked at the first row of that user and carries its points |
| Leaderboard.IconFor | src/components/Leaderboard/Leaderboard.tsx:95-106 | ranks 1, 2 and 3 each get their own icon; every other rank the default |
| Leaderboard.IsTopThree | src/components/Leaderboard/Leaderboard.tsx:157 | for ranks of at least 1, an entry is top-three iff its rank gets a podium icon |
| Leaderboard.StyleFor | src/components/Leaderboard/Leaderboard.tsx:156-171 | the viewer's own row is highlighted before the podium style, which applies iff rank is at most 3 |
| Leaderboard.TopThreeOfFormatted | src/components/Leaderboard/Leaderboard.tsx:157 | on a formatted list an entry is top-three iff its icon is not the default iff it is among the first three |
| Leaderboard.PodiumCountFrom | src/components/Leaderboard/Leaderboard.tsx:157 | counts the top-three entries of a list whose ranks count up from a start |
| Leaderboard.PodiumCountFormatted | src/components/Leaderboard/Leaderboard.tsx:157 | a formatted list has min(3, n) top-three entries |
| Session.EmailLocalPart | src/contexts/AuthContext.tsx:46 | the username is the longest prefix of the email without an @, ending at the first @ when there is one |
| Session.Mount | src/contexts/AuthContext.tsx:31-37 | the persisted user becomes the current user and loading ends |
| Session.Login | src/contexts/AuthContext.tsx:40-59 | a user named after the email's local part, with that email and 0 coins, is set and persisted; loading ends |
| Session.Signup | src/contexts/AuthContext.tsx:61-80 | a user with exactly the given username and email and 0 coins is set and persisted; loading ends |
| Session.Logout | src/contexts/AuthContext.tsx:82-85 | the user is cleared and the persisted entry removed |
| Session.UpdateUserCoins | src/contexts/AuthContext.tsx:87-96 | with a user, coins become old + amount, identity fields kept, result persisted; with none, nothing changes |
| Session.RunKeepsConsistent | src/contexts/AuthContext.tsx:40-96 | every sequence of login, signup, logout and coin adjustments keeps the persisted copy equal to the user |
| Session.MountedRunConsistent | src/contexts/AuthContext.tsx:31-37 | from mount onward storage and memory never disagree |
| Session.AdjustmentsAccumulate | src/contexts/AuthContext.tsx:87-96 | a run of coin adjustments changes only the coins, by their sum, and does nothing when signed out |
| AuthForms.LoginIssues | src/components/Auth/AuthModal.tsx:13-16 | an email issue iff the email check fails, a password issue iff the password is under 6 units |
| AuthForms.SignupIssues | src/components/Auth/AuthModal.tsx:18-24 | an email issue iff the email check fails, a password issue iff under 6 units, a username issue iff under 3 units, a mismatch issue iff confirmation differs |
| AuthForms.LoginValid | src/components/Auth/AuthModal.tsx:13-16 | login is valid iff the email passes and the password has at least 6 units |
| AuthForms.SignupValid | src/components/Auth/AuthModal.tsx:18-24 | signup is valid iff its login part is valid, the username has at least 3 units and the passwords match; a mismatched confirmation is always rejected |
| AuthForms.Toggle | src/components/Auth/AuthModal.tsx:99-101 | toggling always switches to the other form |
| AuthForms.ToggleTwice | src/components/Auth/AuthModal.tsx:99-101 | toggling twice is the identity |
| AuthForms.AfterSubmit | src/components/Auth/AuthModal.tsx:59-97 | after a submission nothing is in flight; the dialog closes iff the call resolved |
| AuthForms.SubmitLogin | src/components/Auth/AuthModal.tsx:41-77 | login is called iff the form validates, and an invalid form shows exactly the login schema's issues; a resolved call signs in and persists a fresh `user_` id with the email, its local part as username and 0 coins, ends loading, closes the dialog and welcomes; a rejected one keeps the session and the open dialog and raises the failure toast |
| AuthForms.SubmitSignup | src/components/Auth/AuthModal.tsx:49-97 | signup is called iff the form validates, and an invalid form shows exactly the signup schema's issues; a resolved call signs in and persists a fresh `user_` id with the given username of at least 3 units, the given email, which passed the check, and 0 coins, ends loading, and closes the dialog; a rejected one keeps the session and the open dialog and raises the failure toast |
| Common.FirstIndex | src/pages/Admin.tsx:81-83 | the index of the first element that matches, or None iff none matches |
| Common.Find | src/pages/Admin.tsx:81-83 | `Array.find`: None iff no element matches; otherwise the first matching element of the list |
| Common.Utf16Length | src/components/Auth/AuthModal.tsx:13-24 | the length JavaScript reports is between the character count and twice it, and equals it when every character is in the Basic Multilingual Plane |
| Common.Prefix | src/components/Leaderboard/Leaderboard.tsx:66 | `substring(0, n)` is a prefix of the string of length min(n, length) |

## Left out

- Every backend call (table queries, RPCs, the auth user listing, the wallet
  debit behind `spendCoins`): modelled as outcomes passed in, not as a client.
- `Math.random` in key and user-id generation: replaced by supplied draws and
  an id suffix; the quality of the randomness is not modelled.
- The mock webhook payload in src/components/Shop/Purchase.tsx:94-136: it
  only logs.
- The end-of-month date arithmetic, the days-remaining count and the period
  bounds in src/components/Leaderboard/Leaderboard.tsx:25-44: floating point
  and time zone dependent.
- The five-minute leaderboard refresh timer: a scheduling concern.
- The backend's `order('points')` and `limit(100)`: the model does not sort
  or truncate the fetched rows; `Leaderboard.FormatRowsRanks` states that
  the entries are sorted by points exactly when the rows it received are,
  and the 100-row limit is not modelled.
- Browser storage and JSON encoding: storage is the `stored` field, and a
  failing storage write (which would leave the user set but not persisted)
  is not modelled.
- The email-format rule of the validation library: left abstract as
  `isEmail`.
- The admin page's redirect and access-denied rendering and the coin-amount
  input parsing (`parseInt(...) || 0`): navigation and DOM input handling.
- Session.UpdateUserCoins: coins are unbounded integers, while the source
  adds JavaScript numbers (doubles), which lose precision beyond 2^53.
- AdminUsers.AddCoins: balances are unbounded integers, with the same
  limitation for JavaScript numbers.
- Leaderboard.DisplayName: the id prefix is taken in characters, while
  `substring` counts UTF-16 units; the two agree on the ASCII ids the
  backend issues.
- Common.Prefix: takes the first `n` characters, while `substring(0, n)`
  takes the first `n` UTF-16 units; they differ only on strings with
  characters outside the Basic Multilingual Plane.
- AuthForms.SubmitLogin: the resolved branch assumes the `useAuth` hook,
  which is not part of this model, delegates to the container in
  src/contexts/AuthContext.tsx; that container exports `useAuthContext`,
  and its user has no admin or owner flags. The same holds for
  AuthForms.SubmitSignup.
- Session.AdjustmentsAccumulate: assumes the container re-renders between
  two calls. `updateUserCoins` reads `user` from its render closure and sets
  a new value rather than a functional update, so two calls in one render
  lose the first (coins 10, then +5 and +7, end at 17, not 22).
- AdminUsers.ToggleAdmin: the local update flips the row's current flag,
  while the backend write stores the negation of the `currentStatus`
  argument the button passes; the model drops that argument and assumes the
  two agree, as they do when the button shows the row's flag. The same
  holds for AdminUsers.ToggleOwner.
- Toasts are reduced to a notice tag; rendering, animation, the audio
  player, header, menu and wallet display are presentation only.

=== FILE: admin_users.dfy ===
/**
 The admin panel's user table: the rows it builds by joining profiles with
 auth accounts and wallets, and the local updates it applies after a balance
 change or a privilege toggle has been accepted by the backend. Every backend
 call enters the model as its result (rows, or success / failure).
 */
module AdminUsers {
  import opened Common

  /** A `profiles` row; the privilege flags are nullable columns. */
  datatype Profile = Profile(id: string, username: string, isAdmin: Option<bool>, isOwner: Option<bool>)

  /** An account from the auth user listing; its email may be missing. */
  datatype AuthUser = AuthUser(id: string, email: Option<string>)

  /** A `wallets` row. */
  datatype Wallet = Wallet(userId: string, balance: int)

  /** One row of the admin table. */
  datatype UserItem = UserItem(id: string, username: string, isAdmin: bool, isOwner: bool, email: string, balance: int)

  /** The signed-in user as the panel sees it: only the privilege flags matter. */
  datatype Actor = Actor(isAdmin: bool, isOwner: bool)

  /** The panel's state: the table, the user picked for a coin grant (`null`
      when none) and the amount typed in. */
  datatype AdminState = AdminState(users: seq<UserItem>, selected: Option<string>, coinAmount: int)

  /** The toast an action raises. */
  datatype Notice = Silent | Succeeded | Failed | AccessDenied

  datatype Outcome = Outcome(state: AdminState, notice: Notice)

  /** `x || false` on a nullable flag. */
  function Flag(b: Option<bool>): bool {
    b == Some(true)
  }

  /** `userData?.email || ''`: the first account with the profile's id
      supplies the email; a missing account or missing email gives "". */
  function EmailFor(id: string, accounts: seq<AuthUser>): (e: string)
    ensures (forall j :: 0 <= j < |accounts| ==> accounts[j].id != id) ==> e == ""
    ensures forall k :: 0 <= k < |accounts| && accounts[k].id == id
                        && (forall j :: 0 <= j < k ==> accounts[j].id != id)
                        ==> e == (if accounts[k].email.Some? then accounts[k].email.value else "")
  {
    match Find(accounts, (a: AuthUser) => a.id == id)
    case None => ""
    case Some(a) => if a.email.Some? then a.email.value else ""
  }

  /** `walletsData?.find(w => w.user_id === id)?.balance || 0`: the first
      wallet with the profile's id supplies the balance; none gives 0. */
  function BalanceFor(id: string, wallets: seq<Wallet>): (b: int)
    ensures (forall j :: 0 <= j < |wallets| ==> wallets[j].userId != id) ==> b == 0
    ensures b != 0 ==> exists j :: 0 <= j < |wallets| && wallets[j].userId == id && wallets[j].balance == b
  {
    match Find(wallets, (w: Wallet) => w.userId == id)
    case None => 0
    case Some(w) => w.balance
  }

  /** The join `fetchUsers` performs: one row per profile, in profile order,
      carrying the profile's id and username. */
  function MergeUsers(profiles: seq<Profile>, accounts: seq<AuthUser>, wallets: seq<Wallet>): (rows: seq<UserItem>)
    ensures |rows| == |profiles|
    ensures forall i :: 0 <= i < |rows| ==> rows[i].id == profiles[i].id && rows[i].username == profiles[i].username
    ensures forall i :: 0 <= i < |rows| ==> rows[i].isAdmin == (profiles[i].isAdmin == Some(true))
    ensures forall i :: 0 <= i < |rows| ==> rows[i].isOwner == (profiles[i].isOwner == Some(true))
  {
    seq(|profiles|, i requires 0 <= i < |profiles| =>
      var p := profiles[i];
      UserItem(p.id, p.username, Flag(p.isAdmin), Flag(p.isOwner), EmailFor(p.id, accounts), BalanceFor(p.id, wallets)))
  }

  /** A profile without an auth account gets the empty email; one without a
      wallet gets balance 0; otherwise the first matching record supplies the
      value. */
  lemma MergeDefaults(profiles: seq<Profile>, accounts: seq<AuthUser>, wallets: seq<Wallet>, i: nat)
    requires i < |profiles|
    ensures var row := MergeUsers(profiles, accounts, wallets)[i];
            (forall j :: 0 <= j < |accounts| ==> accounts[j].id != profiles[i].id) ==> row.email == ""
    ensures var row := MergeUsers(profiles, accounts, wallets)[i];
            (forall j :: 0 <= j < |wallets| ==> wallets[j].userId != profiles[i].id) ==> row.balance == 0
    ensures var row := MergeUsers(profiles, accounts, wallets)[i];
            forall k :: 0 <= k < |wallets| && wallets[k].userId == profiles[i].id
                        && (forall j :: 0 <= j < k ==> wallets[j].userId != profiles[i].id)
                        ==> row.balance == wallets[k].balance
    ensures var row := MergeUsers(profiles, accounts, wallets)[i];
            forall k :: 0 <= k < |accounts| && accounts[k].id == profiles[i].id
                        && (forall j :: 0 <= j < k ==> accounts[j].id != profiles[i].id)
                        ==> row.email == (if accounts[k].email.Some? then accounts[k].email.value else "")
  {
    var id := profiles[i].id;
    var isW := (w: Wallet) => w.userId == id;
    var isA := (a: AuthUser) => a.id == id;
    forall k | 0 <= k < |wallets| && wallets[k].userId == id && (forall j :: 0 <= j < k ==> wallets[j].userId != id)
      ensures BalanceFor(id, wallets) == wallets[k].balance
    {
      var r := FirstIndex(wallets, isW);
      assert isW(wallets[k]);
      assert r.Some? && r.value == k;
    }
    forall k | 0 <= k < |accounts| && accounts[k].id == id && (forall j :: 0 <= j < k ==> accounts[j].id != id)
      ensures EmailFor(id, accounts) == (if accounts[k].email.Some? then accounts[k].email.value else "")
    {
      var r := FirstIndex(accounts, isA);
      assert isA(accounts[k]);
      assert r.Some? && r.value == k;
    }
  }

  /** The panel is open to administrators and owners only. */
  predicate Privileged(actor: Option<Actor>)
    ensures Privileged(actor) ==> actor.Some?
    ensures actor.Some? && actor.value.isOwner ==> Privileged(actor)
  {
    actor.Some? && (actor.value.isAdmin || actor.value.isOwner)
  }

  /** `fetchUsers`: an unprivileged viewer fetches nothing; a failed profile
      query keeps the table and raises an error; otherwise the table becomes
      the join. A failed account listing or wallet query contributes no
      records (`None`). */
  function FetchUsers(s: AdminState, actor: Option<Actor>, profiles: Option<seq<Profile>>,
                      accounts: Option<seq<AuthUser>>, wallets: Option<seq<Wallet>>): (o: Outcome)
    ensures !Privileged(actor) ==> o == Outcome(s, Silent)
    ensures Privileged(actor) && profiles.None? ==> o == Outcome(s, Failed)
    ensures Privileged(actor) && profiles.Some? ==> |o.state.users| == |profiles.value| && o.notice == Silent
    ensures Privileged(actor) && profiles.Some? ==>
              o.state.users == MergeUsers(profiles.value,
                                          if accounts.Some? then accounts.value else [],
                                          if wallets.Some? then wallets.value else [])
    ensures o.state.selected == s.selected && o.state.coinAmount == s.coinAmount
  {
    if !Privileged(actor) then Outcome(s, Silent)
    else match profiles
      case None => Outcome(s, Failed)
      case Some(ps) =>
        var acc := if accounts.Some? then accounts.value else [];
        var ws := if wallets.Some? then wallets.value else [];
        Outcome(s.(users := MergeUsers(ps, acc, ws)), Silent)
  }

  /** Adds `amount` to the balance of every row with the given id. */
  function CreditRows(users: seq<UserItem>, id: string, amount: int): (r: seq<UserItem>)
    ensures |r| == |users|
    ensures forall i :: 0 <= i < |r| && users[i].id != id ==> r[i] == users[i]
    ensures forall i :: 0 <= i < |r| && users[i].id == id ==> r[i] == users[i].(balance := users[i].balance + amount)
  {
    seq(|users|, i requires 0 <= i < |users| =>
      if users[i].id == id then users[i].(balance := users[i].balance + amount) else users[i])
  }

  /** A coin grant is attempted only with a user selected (a non-empty id)
      and a non-zero amount. */
  predicate GrantReady(s: AdminState)
    ensures GrantReady(s) ==> s.selected.Some? && |s.selected.value| > 0
    ensures s.coinAmount == 0 ==> !GrantReady(s)
  {
    s.selected.Some? && s.selected.value != "" && s.coinAmount != 0
  }

  /** `handleAddCoins`, with the balance RPC's outcome supplied. Without a
      selection or with amount 0 nothing happens; an RPC error keeps the
      table; success credits the selected user and clears the amount. */
  function AddCoins(s: AdminState, rpcOk: bool): (o: Outcome)
    ensures !GrantReady(s) ==> o == Outcome(s, Silent)
    ensures GrantReady(s) && !rpcOk ==> o == Outcome(s, Failed)
    ensures GrantReady(s) && rpcOk ==> o.notice == Succeeded && o.state.coinAmount == 0
    ensures GrantReady(s) && rpcOk ==> o.state.users == CreditRows(s.users, s.selected.value, s.coinAmount)
    ensures o.state.selected == s.selected
    ensures |o.state.users| == |s.users|
    ensures GrantReady(s) && rpcOk ==>
              forall i :: 0 <= i < |s.users| && s.users[i].id != s.selected.value ==> o.state.users[i] == s.users[i]
    ensures GrantReady(s) && rpcOk ==>
              forall i :: 0 <= i < |s.users| && s.users[i].id == s.selected.value ==>
                o.state.users[i] == s.users[i].(balance := s.users[i].balance + s.coinAmount)
  {
    if !GrantReady(s) then Outcome(s, Silent)
    else if !rpcOk then Outcome(s, Failed)
    else Outcome(AdminState(CreditRows(s.users, s.selected.value, s.coinAmount), s.selected, 0), Succeeded)
  }

  /** Total balance over the table. */
  function TotalBalance(users: seq<UserItem>): int {
    if |users| == 0 then 0 else users[0].balance + TotalBalance(users[1..])
  }

  /** Number of rows carrying the given id. */
  function CountId(users: seq<UserItem>, id: string): nat {
    if |users| == 0 then 0 else (if users[0].id == id then 1 else 0) + CountId(users[1..], id)
  }

  /** Crediting rows moves the table's total by the amount once per matching
      row: with unique ids, by exactly the amount granted. */
  lemma {:induction false} CreditRowsTotal(users: seq<UserItem>, id: string, amount: int)
    ensures TotalBalance(CreditRows(users, id, amount)) == TotalBalance(users) + amount * CountId(users, id)
  {
    if |users| > 0 {
      CreditRowsTotal(users[1..], id, amount);
      assert CreditRows(users, id, amount)[1..] == CreditRows(users[1..], id, amount);
    }
  }

  /** Ids in the table are distinct (they come from the `profiles` primary key). */
  predicate UniqueIds(users: seq<UserItem>) {
    forall i, j :: 0 <= i < j < |users| ==> users[i].id != users[j].id
  }

  /** A present id occurs once in a table with unique ids. */
  lemma {:induction false} CountIdUnique(users: seq<UserItem>, id: string)
    requires UniqueIds(users)
    ensures CountId(users, id) == if exists i :: 0 <= i < |users| && users[i].id == id then 1 else 0
  {
    if |users| > 0 {
      CountIdUnique(users[1..], id);
      if users[0].id == id {
        assert forall i :: 0 <= i < |users[1..]| ==> users[1..][i].id == users[i + 1].id;
      } else if exists i :: 0 <= i < |users| && users[i].id == id {
        var i :| 0 <= i < |users| && users[i].id == id;
        assert users[1..][i - 1].id == id;
      }
    }
  }

  /** A successful grant raises the table's total balance by exactly the
      amount when the selected user is listed, and leaves it unchanged when
      not. */
  lemma AddCoinsTotal(s: AdminState)
    requires GrantReady(s) && UniqueIds(s.users)
    ensures var o := AddCoins(s, true);
            TotalBalance(o.state.users) == TotalBalance(s.users)
              + (if exists i :: 0 <= i < |s.users| && s.users[i].id == s.selected.value then s.coinAmount else 0)
  {
    CreditRowsTotal(s.users, s.selected.value, s.coinAmount);
    CountIdUnique(s.users, s.selected.value);
  }

  /** Flips `isAdmin` on every row with the given id. */
  function FlipAdmin(users: seq<UserItem>, id: string): (r: seq<UserItem>)
    ensures |r| == |users|
    ensures forall i :: 0 <= i < |r| && users[i].id != id ==> r[i] == users[i]
    ensures forall i :: 0 <= i < |r| && users[i].id == id ==> r[i] == users[i].(isAdmin := !users[i].isAdmin)
  {
    seq(|users|, i requires 0 <= i < |users| =>
      if users[i].id == id then users[i].(isAdmin := !users[i].isAdmin) else users[i])
  }

  /** Flips `isOwner` on every row with the given id. */
  function FlipOwner(users: seq<UserItem>, id: string): (r: seq<UserItem>)
    ensures |r| == |users|
    ensures forall i :: 0 <= i < |r| && users[i].id != id ==> r[i] == users[i]
    ensures forall i :: 0 <= i < |r| && users[i].id == id ==> r[i] == users[i].(isOwner := !users[i].isOwner)
  {
    seq(|users|, i requires 0 <= i < |users| =>
      if users[i].id == id then users[i].(isOwner := !users[i].isOwner) else users[i])
  }

  /** `toggleAdminStatus(userId, _)`, with the profile update's outcome
      supplied: on success the target row's admin flag flips, on error the
      table is kept. */
  function ToggleAdmin(s: AdminState, userId: string, updateOk: bool): (o: Outcome)
    ensures !updateOk ==> o == Outcome(s, Failed)
    ensures updateOk ==> o.notice == Succeeded && o.state.users == FlipAdmin(s.users, userId)
    ensures o.state.selected == s.selected && o.state.coinAmount == s.coinAmount
  {
    if updateOk then Outcome(s.(users := FlipAdmin(s.users, userId)), Succeeded)
    else Outcome(s, Failed)
  }

  /** `toggleOwnerStatus(userId, _)`: refused unless the acting user is an
      owner; otherwise as ToggleAdmin on the owner flag. */
  function ToggleOwner(s: AdminState, actor: Option<Actor>, userId: string, updateOk: bool): (o: Outcome)
    ensures !(actor.Some? && actor.value.isOwner) ==> o == Outcome(s, AccessDenied)
    ensures actor.Some? && actor.value.isOwner && !updateOk ==> o == Outcome(s, Failed)
    ensures actor.Some? && actor.value.isOwner && updateOk ==>
              o.notice == Succeeded && o.state.users == FlipOwner(s.users, userId)
    ensures o.state.selected == s.selected && o.state.coinAmount == s.coinAmount
  {
    if !(actor.Some? && actor.value.isOwner) then Outcome(s, AccessDenied)
    else if updateOk then Outcome(s.(users := FlipOwner(s.users, userId)), Succeeded)
    else Outcome(s, Failed)
  }

  /** Toggling a user's admin flag twice restores the table. */
  lemma ToggleAdminTwice(s: AdminState, userId: string)
    ensures ToggleAdmin(ToggleAdmin(s, userId, true).state, userId, true).state == s
  {
    var once := FlipAdmin(s.users, userId);
    assert FlipAdmin(once, userId) == s.users;
  }

  /** Toggling a user's owner flag twice, as an owner, restores the table. */
  lemma ToggleOwnerTwice(s: AdminState, actor: Actor, userId: string)
    requires actor.isOwner
    ensures ToggleOwner(ToggleOwner(s, Some(actor), userId, true).state, Some(actor), userId, true).state == s
  {
    var once := FlipOwner(s.users, userId);
    assert FlipOwner(once, userId) == s.users;
  }

  /** Number of administrators in the table. */
  function AdminCount(users: seq<UserItem>): nat {
    if |users| == 0 then 0 else (if users[0].isAdmin then 1 else 0) + AdminCount(users[1..])
  }

  /** Promoting a listed non-admin (ids unique) adds exactly one
      administrator; demoting a listed admin removes exactly one. */
  lemma {:induction false} FlipAdminCount(users: seq<UserItem>, k: nat)
    requires k < |users| && UniqueIds(users)
    ensures AdminCount(FlipAdmin(users, users[k].id)) == AdminCount(users) + (if users[k].isAdmin then -1 else 1)
  {
    var id := users[k].id;
    var r := FlipAdmin(users, id);
    if k == 0 {
      assert forall i :: 0 <= i < |users[1..]| ==> users[1..][i].id != id;
      assert r[1..] == users[1..];
    } else {
      assert users[0].id != id;
      assert users[1..][k - 1] == users[k];
      FlipAdminCount(users[1..], k - 1);
      assert r[1..] == FlipAdmin(users[1..], id);
    }
  }
}

=== FILE: auth_forms.dfy ===
/**
 The login / signup dialog: the validation rules of its two forms and the
 switch between them. The email-format check belongs to the validation
 library; it enters the model as the predicate `isEmail`.
 */
module AuthForms {
  import opened Common
  import Session

  /** Minimum password length, in UTF-16 code units. */
  const MinPasswordLength: nat := 6

  /** Minimum username length, in UTF-16 code units. */
  const MinUsernameLength: nat := 3

  datatype LoginForm = LoginForm(email: string, password: string)

  datatype SignupForm = SignupForm(username: string, email: string, password: string, confirmPassword: string)

  /** A validation message, tagged with the field it is shown under. */
  datatype Issue = InvalidEmail | ShortPassword | ShortUsername | PasswordsDiffer

  /** `loginSchema`: each failing field contributes its issue, email first. */
  function LoginIssues(f: LoginForm, isEmail: string -> bool): (issues: seq<Issue>)
    ensures InvalidEmail in issues <==> !isEmail(f.email)
    ensures ShortPassword in issues <==> Utf16Length(f.password) < MinPasswordLength
    ensures ShortUsername !in issues && PasswordsDiffer !in issues
  {
    (if isEmail(f.email) then [] else [InvalidEmail])
    + (if Utf16Length(f.password) < MinPasswordLength then [ShortPassword] else [])
  }

  /** The login fields of a signup form. */
  function AsLogin(f: SignupForm): LoginForm {
    LoginForm(f.email, f.password)
  }

  /** `signupSchema`: the login checks, the username check, and then the
      password-confirmation refinement, which runs even when a field check
      has already failed (those failures do not abort the object). */
  function SignupIssues(f: SignupForm, isEmail: string -> bool): (issues: seq<Issue>)
    ensures InvalidEmail in issues <==> !isEmail(f.email)
    ensures ShortPassword in issues <==> Utf16Length(f.password) < MinPasswordLength
    ensures ShortUsername in issues <==> Utf16Length(f.username) < MinUsernameLength
    ensures PasswordsDiffer in issues <==> f.password != f.confirmPassword
    ensures forall x :: x in LoginIssues(AsLogin(f), isEmail) ==> x in issues
  {
    LoginIssues(AsLogin(f), isEmail)
    + (if Utf16Length(f.username) < MinUsernameLength then [ShortUsername] else [])
    + (if f.password == f.confirmPassword then [] else [PasswordsDiffer])
  }

  /** The login schema accepts the form: its email passes the email check
      and its password has at least six UTF-16 units. */
  predicate LoginValid(f: LoginForm, isEmail: string -> bool)
    ensures LoginValid(f, isEmail) <==> isEmail(f.email) && Utf16Length(f.password) >= MinPasswordLength
  {
    var issues := LoginIssues(f, isEmail);
    assert issues == [] <==> InvalidEmail !in issues && ShortPassword !in issues;
    issues == []
  }

  /** The signup schema accepts the form: its login part passes, the
      username has at least three units and the confirmation equals the
      password. In particular a mismatched confirmation is always rejected,
      and every valid signup carries a valid login. */
  predicate SignupValid(f: SignupForm, isEmail: string -> bool)
    ensures SignupValid(f, isEmail) <==>
              LoginValid(AsLogin(f), isEmail)
              && Utf16Length(f.username) >= MinUsernameLength
              && f.password == f.confirmPassword
    ensures f.password != f.confirmPassword ==> !SignupValid(f, isEmail)
  {
    var issues := SignupIssues(f, isEmail);
    var login := LoginIssues(AsLogin(f), isEmail);
    assert issues == [] ==> login == [] by {
      if issues == [] {
        assert forall x :: x in login ==> x in issues;
      }
    }
    issues == []
  }

  /** Which of the two forms the dialog shows. */
  datatype AuthType = LoginMode | SignupMode

  /** `toggleAuthType`: the other form. */
  function Toggle(t: AuthType): (r: AuthType)
    ensures r != t
  {
    if t == LoginMode then SignupMode else LoginMode
  }

  /** Toggling twice shows the original form again. */
  lemma ToggleTwice(t: AuthType)
    ensures Toggle(Toggle(t)) == t
  {
  }

  /** The dialog after a submission that reached the auth call: it closes
      when the call resolved and stays open when it threw; either way no
      submission is in flight any more. */
  datatype Dialog = Dialog(open: bool, isSubmitting: bool)

  function AfterSubmit(d: Dialog, resolved: bool): (e: Dialog)
    ensures !e.isSubmitting
    ensures e.open <==> d.open && !resolved
  {
    if resolved then Dialog(false, false) else Dialog(d.open, false)
  }

  /** How the awaited `login` / `signup` call ended. */
  datatype CallOutcome = Resolved | Rejected

  /** The toast a submission that reached the call raises. */
  datatype Toast = Welcome | AuthFailed

  /** A submission: rejected by the form schema (the call is not made), or
      passed to the auth call, with the session, dialog and toast after it. */
  datatype Attempt = Invalid(issues: seq<Issue>) | Done(session: Session.State, dialog: Dialog, toast: Toast)

  /** `handleLogin` behind the login form's resolver. A resolved call signs
      in the user named after the email and closes the dialog; a rejected
      one leaves the session as it was, keeps the dialog open and raises the
      failure toast. */
  function SubmitLogin(s: Session.State, d: Dialog, f: LoginForm, isEmail: string -> bool,
                       call: CallOutcome, idSuffix: string): (r: Attempt)
    ensures r.Invalid? <==> !LoginValid(f, isEmail)
    ensures r.Invalid? ==> |r.issues| > 0 && r.issues == LoginIssues(f, isEmail)
    ensures r.Done? ==> !r.dialog.isSubmitting && (r.dialog.open <==> d.open && call == Rejected)
    ensures r.Done? ==> (r.toast == Welcome <==> call == Resolved)
    ensures r.Done? && call == Rejected ==> r.session == s
    ensures r.Done? && call == Resolved ==>
              r.session.user.Some? && r.session.user.value.email == f.email
              && r.session.user.value.username == Session.EmailLocalPart(f.email)
              && Session.Consistent(r.session)
    ensures r.Done? && call == Resolved ==>
              r.session.user.value.coins == 0 && !r.session.loading
              && Session.IdPrefix <= r.session.user.value.id
  {
    if !LoginValid(f, isEmail) then Invalid(LoginIssues(f, isEmail))
    else match call
      case Resolved => Done(Session.Login(s, f.email, idSuffix), AfterSubmit(d, true), Welcome)
      case Rejected => Done(s, AfterSubmit(d, false), AuthFailed)
  }

  /** `handleSignup` behind the signup form's resolver. A resolved call
      signs in a user whose username has at least three units and whose
      email passed the email check; a rejected one changes no session. */
  function SubmitSignup(s: Session.State, d: Dialog, f: SignupForm, isEmail: string -> bool,
                        call: CallOutcome, idSuffix: string): (r: Attempt)
    ensures r.Invalid? <==> !SignupValid(f, isEmail)
    ensures r.Invalid? ==> |r.issues| > 0 && r.issues == SignupIssues(f, isEmail)
    ensures r.Done? ==> !r.dialog.isSubmitting && (r.dialog.open <==> d.open && call == Rejected)
    ensures r.Done? ==> (r.toast == Welcome <==> call == Resolved)
    ensures r.Done? && call == Rejected ==> r.session == s
    ensures r.Done? && call == Resolved ==>
              r.session.user.Some? && r.session.user.value.username == f.username
              && r.session.user.value.email == f.email
              && Utf16Length(r.session.user.value.username) >= MinUsernameLength
              && isEmail(r.session.user.value.email)
              && Session.Consistent(r.session)
    ensures r.Done? && call == Resolved ==>
              r.session.user.value.coins == 0 && !r.session.loading
              && Session.IdPrefix <= r.session.user.value.id
  {
    if !SignupValid(f, isEmail) then Invalid(SignupIssues(f, isEmail))
    else
      match call
      case Resolved => Done(Session.Signup(s, f.email, f.username, idSuffix), AfterSubmit(d, true), Welcome)
      case Rejected => Done(s, AfterSubmit(d, false), AuthFailed)
  }
}

=== FILE: common.dfy ===
/**
 Small shared vocabulary for the model: an optional value (the source's
 `T | null`), the "first element that matches" search that every `Array.find`
 in the source performs, and the string measures JavaScript uses.
 */
module Common {

  /** A value that may be absent (`null` / `undefined` in the source). */
  datatype Option<+T> = None | Some(value: T)

  /** Index of the first element of `xs` satisfying `matches`, or None when no
      element does. This is what `Array.prototype.find` / `findIndex` return. */
  function FirstIndex<T>(xs: seq<T>, matches: T -> bool): (r: Option<nat>)
    ensures r.Some? ==> r.value < |xs| && matches(xs[r.value])
    ensures r.Some? ==> forall j :: 0 <= j < r.value ==> !matches(xs[j])
    ensures r.None? <==> forall j :: 0 <= j < |xs| ==> !matches(xs[j])
  {
    if |xs| == 0 then None
    else if matches(xs[0]) then Some(0)
    else
      match FirstIndex(xs[1..], matches)
      case None => None
      case Some(k) => Some(k + 1)
  }

  /** The first element of `xs` satisfying `matches`, as `Array.prototype.find`. */
  function Find<T>(xs: seq<T>, matches: T -> bool): (r: Option<T>)
    ensures r.None? <==> forall j :: 0 <= j < |xs| ==> !matches(xs[j])
    ensures r.Some? ==> exists k :: 0 <= k < |xs| && xs[k] == r.value && matches(xs[k])
                                   && forall j :: 0 <= j < k ==> !matches(xs[j])
  {
    match FirstIndex(xs, matches)
    case None => None
    case Some(k) => Some(xs[k])
  }

  /** Length of a string as JavaScript's `String.length` reports it: UTF-16
      code units, so a character outside the Basic Multilingual Plane counts
      twice. */
  function Utf16Length(s: string): (n: nat)
    ensures |s| <= n <= 2 * |s|
    ensures (forall i :: 0 <= i < |s| ==> s[i] as int <= 0xFFFF) ==> n == |s|
  {
    if |s| == 0 then 0
    else (if s[0] as int > 0xFFFF then 2 else 1) + Utf16Length(s[1..])
  }

  /** `s.substring(0, n)`, taken in characters: the first `n` characters, or
      all of `s` when it is shorter. `substring` counts UTF-16 units, so the
      two agree on strings inside the Basic Multilingual Plane. */
  function Prefix(s: string, n: nat): (r: string)
    ensures |r| == if |s| < n then |s| else n
    ensures r <= s
  {
    if |s| < n then s else s[..n]
  }
}

=== FILE: leaderboard.dfy ===
/**
 The monthly leaderboard: ranked entries built from the rows the backend
 returns (already ordered by points, highest first), the lookup of the
 signed-in user's own entry, and the podium classification used for icons
 and row styling.
 */
module Leaderboard {
  import opened Common

  /** A `leaderboard` row joined with its profile's username, which may be
      absent. */
  datatype Row = Row(userId: string, points: int, profileUsername: Option<string>)

  /** A displayed entry. */
  datatype Entry = Entry(id: string, username: string, points: int, rank: int)

  /** Characters of the user id shown in the fallback name. */
  const IdPrefixLength: nat := 8

  /** `item.profiles?.username || \`User ${item.user_id.substring(0, 8)}\``:
      a missing or empty username falls back to "User " and the first eight
      characters of the id. */
  function DisplayName(r: Row): (name: string)
    ensures r.profileUsername.Some? && r.profileUsername.value != "" ==> name == r.profileUsername.value
    ensures r.profileUsername.None? || r.profileUsername.value == "" ==>
              name == "User " + Prefix(r.userId, IdPrefixLength)
              && |name| == 5 + (if |r.userId| < IdPrefixLength then |r.userId| else IdPrefixLength)
    ensures name != ""
  {
    if r.profileUsername.Some? && r.profileUsername.value != "" then r.profileUsername.value
    else "User " + Prefix(r.userId, IdPrefixLength)
  }

  /** The `data.map((item, index) => ...)` step: row `i` becomes the entry
      ranked `i + 1`. */
  function FormatRows(rows: seq<Row>): (entries: seq<Entry>)
    ensures |entries| == |rows|
    ensures forall i :: 0 <= i < |rows| ==>
              entries[i].id == rows[i].userId && entries[i].points == rows[i].points
              && entries[i].rank == i + 1 && entries[i].username == DisplayName(rows[i])
  {
    seq(|rows|, i requires 0 <= i < |rows| => Entry(rows[i].userId, DisplayName(rows[i]), rows[i].points, i + 1))
  }

  /** Points never increase down the list. */
  predicate RowsDescending(rows: seq<Row>) {
    forall i, j :: 0 <= i < j < |rows| ==> rows[i].points >= rows[j].points
  }

  predicate EntriesDescending(entries: seq<Entry>) {
    forall i, j :: 0 <= i < j < |entries| ==> entries[i].points >= entries[j].points
  }

  /** The set of ranks a list uses. */
  function RankSet(entries: seq<Entry>): set<int> {
    set i | 0 <= i < |entries| :: entries[i].rank
  }

  /** The ranks of a formatted list are exactly 1..n, strictly increasing
      down the list, and the order of points is carried over from the rows
      in both directions. */
  lemma FormatRowsRanks(rows: seq<Row>)
    ensures forall k :: k in RankSet(FormatRows(rows)) <==> 1 <= k <= |rows|
    ensures var es := FormatRows(rows);
            forall i, j :: 0 <= i < j < |es| ==> es[i].rank < es[j].rank
    ensures RowsDescending(rows) <==> EntriesDescending(FormatRows(rows))
  {
    var es := FormatRows(rows);
    forall k | 1 <= k <= |rows|
      ensures k in RankSet(es)
    {
      assert es[k - 1].rank == k;
    }
    if EntriesDescending(es) {
      forall i, j | 0 <= i < j < |rows|
        ensures rows[i].points >= rows[j].points
      {
        assert es[i].points >= es[j].points;
      }
    }
  }

  /** What a leaderboard fetch produced. */
  datatype Fetch = FetchError | NoData | Rows(rows: seq<Row>)

  /** The list after a fetch: replaced by the formatted rows on data, kept
      on an error (which raises a toast) or when no data came back. */
  function ApplyFetch(current: seq<Entry>, f: Fetch): (entries: seq<Entry>)
    ensures f.Rows? ==> entries == FormatRows(f.rows) && |entries| == |f.rows|
    ensures !f.Rows? ==> entries == current
    ensures f.Rows? ==> forall i :: 0 <= i < |entries| ==> entries[i].rank == i + 1
  {
    match f
    case Rows(rows) => FormatRows(rows)
    case _ => current
  }

  /** `getUserRank`: no user gives null; otherwise the first entry whose id
      is the user's id, or null when there is none. */
  function UserRank(userId: Option<string>, entries: seq<Entry>): (r: Option<Entry>)
    ensures userId.None? ==> r.None?
    ensures userId.Some? && r.None? ==> forall i :: 0 <= i < |entries| ==> entries[i].id != userId.value
    ensures r.Some? ==> userId.Some? && r.value.id == userId.value
    ensures r.Some? ==> exists k :: 0 <= k < |entries| && entries[k] == r.value
                                    && forall j :: 0 <= j < k ==> entries[j].id != userId.value
  {
    match userId
    case None => None
    case Some(u) =>
      match FirstIndex(entries, (e: Entry) => e.id == u)
      case None => None
      case Some(k) => Some(entries[k])
  }

  /** On a formatted list, the user's entry is the row where the user first
      appears: its rank is that row's position plus one and its points are
      that row's points. */
  lemma UserRankOfFormatted(rows: seq<Row>, u: string)
    ensures var r := UserRank(Some(u), FormatRows(rows));
            r.None? <==> forall i :: 0 <= i < |rows| ==> rows[i].userId != u
    ensures var r := UserRank(Some(u), FormatRows(rows));
            r.Some? ==> 1 <= r.value.rank <= |rows|
                        && rows[r.value.rank - 1].userId == u
                        && rows[r.value.rank - 1].points == r.value.points
                        && forall j :: 0 <= j < r.value.rank - 1 ==> rows[j].userId != u
  {
    var es := FormatRows(rows);
    var hit := (e: Entry) => e.id == u;
    assert forall i :: 0 <= i < |rows| ==> (hit(es[i]) <==> rows[i].userId == u);
    match FirstIndex(es, hit)
    case None =>
    case Some(k) =>
      assert UserRank(Some(u), es) == Some(es[k]);
  }

  /** The icon `getRankIcon` picks. */
  datatype RankIcon = Crown | Trophy | Medal | Award

  function IconFor(rank: int): (icon: RankIcon)
    ensures icon == Crown <==> rank == 1
    ensures icon == Trophy <==> rank == 2
    ensures icon == Medal <==> rank == 3
  {
    if rank == 1 then Crown
    else if rank == 2 then Trophy
    else if rank == 3 then Medal
    else Award
  }

  /** `entry.rank <= 3`: for a rank of at least 1, exactly the ranks that
      get a podium icon. */
  predicate IsTopThree(rank: int)
    ensures 1 <= rank ==> (IsTopThree(rank) <==> IconFor(rank) != Award)
  {
    rank <= 3
  }

  /** Background of a row: the viewer's own row is highlighted first, then
      the podium, then the rest. */
  datatype RowStyle = OwnRow | PodiumRow | PlainRow

  function StyleFor(e: Entry, viewer: Option<string>): (style: RowStyle)
    ensures style == OwnRow <==> viewer == Some(e.id)
    ensures style == PodiumRow <==> viewer != Some(e.id) && IsTopThree(e.rank)
  {
    if viewer == Some(e.id) then OwnRow
    else if IsTopThree(e.rank) then PodiumRow
    else PlainRow
  }

  /** On a formatted list, an entry is on the podium iff its icon is not the
      default, and exactly the first three positions are on the podium. */
  lemma TopThreeOfFormatted(rows: seq<Row>, i: nat)
    requires i < |rows|
    ensures var e := FormatRows(rows)[i];
            IsTopThree(e.rank) <==> IconFor(e.rank) != Award
    ensures IsTopThree(FormatRows(rows)[i].rank) <==> i < 3
  {
  }

  /** Number of podium entries in a list. */
  function PodiumCount(entries: seq<Entry>): nat {
    if |entries| == 0 then 0 else (if IsTopThree(entries[0].rank) then 1 else 0) + PodiumCount(entries[1..])
  }

  /** Ranks increase from a starting value down a list. */
  lemma {:induction false} PodiumCountFrom(entries: seq<Entry>, start: int)
    requires forall i :: 0 <= i < |entries| ==> entries[i].rank == start + i
    requires start >= 1
    ensures PodiumCount(entries) == if start > 3 then 0 else if |entries| < 4 - start then |entries| else 4 - start
  {
    if |entries| > 0 {
      PodiumCountFrom(entries[1..], start + 1);
    }
  }

  /** A formatted list has min(3, n) podium entries. */
  lemma PodiumCountFormatted(rows: seq<Row>)
    ensures PodiumCount(FormatRows(rows)) == if |rows| < 3 then |rows| else 3
  {
    PodiumCountFrom(FormatRows(rows), 1);
  }
}

=== FILE: purchase.dfy ===
/**
 The shop purchase dialog: the contact-phone validator that gates the form,
 and the submit handler that debits the wallet and, only when the debit
 succeeds, issues a redemption key. The debit itself (`spendCoins`) belongs to
 the wallet layer and enters the model as its outcome.
 */
module Purchase {
  import opened Common
  import RedemptionKey

  /** Minimum phone-number length, in UTF-16 code units. */
  const MinPhoneLength: nat := 10

  /** The ECMAScript `\s` class: WhiteSpace and LineTerminator code points. */
  predicate IsJsWhitespace(c: char) {
    || c == '\t' || c == '\n' || c == '\U{000B}' || c == '\U{000C}' || c == '\r' || c == ' '
    || c == '\U{00A0}' || c == '\U{1680}' || ('\U{2000}' <= c <= '\U{200A}')
    || c == '\U{2028}' || c == '\U{2029}' || c == '\U{202F}' || c == '\U{205F}'
    || c == '\U{3000}' || c == '\U{FEFF}'
  }

  /** The bracket class `[0-9\s\-()]` of the phone pattern. */
  predicate IsPhoneChar(c: char) {
    ('0' <= c <= '9') || IsJsWhitespace(c) || c == '-' || c == '(' || c == ')'
  }

  /** A non-empty run of phone characters. */
  predicate IsPhoneBody(s: string) {
    |s| > 0 && forall i :: 0 <= i < |s| ==> IsPhoneChar(s[i])
  }

  /** The regular expression `^\+?[0-9\s\-()]+$`: an optional leading `+`
      followed by one or more phone characters, stated as the existence of
      such a split. */
  predicate MatchesPhonePattern(s: string)
    ensures MatchesPhonePattern(s) ==> |s| > 0 && (s[0] == '+' ==> |s| >= 2)
    ensures MatchesPhonePattern(s) ==> forall i :: 0 < i < |s| ==> IsPhoneChar(s[i])
    ensures MatchesPhonePattern(s) ==> s[0] == '+' || IsPhoneChar(s[0])
  {
    IsPhoneBody(s) || (|s| > 0 && s[0] == '+' && IsPhoneBody(s[1..]))
  }

  /** A validation message of the phone form. */
  datatype PhoneIssue = TooShort | InvalidFormat

  /** `phoneSchema` on a phone number: both string checks run and each
      failing one contributes its issue, length first. */
  function PhoneIssues(s: string): (issues: seq<PhoneIssue>)
    ensures TooShort in issues <==> Utf16Length(s) < MinPhoneLength
    ensures InvalidFormat in issues <==> !MatchesPhonePattern(s)
    ensures |issues| <= 2
  {
    (if Utf16Length(s) < MinPhoneLength then [TooShort] else [])
    + (if MatchesPhonePattern(s) then [] else [InvalidFormat])
  }

  /** Every character the phone pattern admits is a single UTF-16 unit. */
  lemma PatternIsSingleUnits(s: string)
    ensures MatchesPhonePattern(s) ==> Utf16Length(s) == |s|
  {
    if MatchesPhonePattern(s) {
      forall i | 0 <= i < |s|
        ensures s[i] as int <= 0xFFFF
      {
        if i > 0 || s[0] != '+' {
          if !IsPhoneBody(s) {
            assert s[1..][i - 1] == s[i];
          }
        }
      }
    }
  }

  /** The form accepts the phone number: it has at least ten characters and
      is an optional `+` followed by one or more digits, whitespace, `-`, `(`
      or `)`. The ten-unit minimum is a ten-character minimum because the
      pattern admits only single-unit characters. */
  predicate ValidPhone(s: string)
    ensures ValidPhone(s) <==> |s| >= MinPhoneLength && MatchesPhonePattern(s)
  {
    PatternIsSingleUnits(s);
    assert PhoneIssues(s) == [] <==> (TooShort !in PhoneIssues(s) && InvalidFormat !in PhoneIssues(s));
    PhoneIssues(s) == []
  }

  /** The pattern, matched left to right the way a regular-expression engine
      runs it: an optional `+`, then phone characters until the end. */
  method MatchPhone(s: string) returns (ok: bool)
    ensures ok <==> MatchesPhonePattern(s)
  {
    var start := if |s| > 0 && s[0] == '+' then 1 else 0;
    if start == |s| {
      ok := false;
      return;
    }
    var i := start;
    while i < |s|
      invariant start <= i <= |s|
      invariant forall j :: start <= j < i ==> IsPhoneChar(s[j])
    {
      if !IsPhoneChar(s[i]) {
        ok := false;
        if start == 1 {
          assert s[1..][i - 1] == s[i];
        }
        return;
      }
      i := i + 1;
    }
    ok := true;
    if start == 1 {
      assert forall j :: 0 <= j < |s[1..]| ==> s[1..][j] == s[j + 1];
    }
  }

  /** What the dialog shows: whether a submission is in flight and the key
      issued so far (`null` until a purchase succeeds). */
  datatype PurchaseView = PurchaseView(isSubmitting: bool, keyGenerated: Option<string>)

  /** The dialog as first opened. */
  const InitialView := PurchaseView(false, None)

  /** What `spendCoins(item.price, item.name)` did: debited, declined
      (resolved false), or threw. */
  datatype SpendOutcome = Debited | Declined | Threw

  /** The toast the handler raises. This handler raises none on a declined
      debit. */
  datatype Notice = NoNotice | PurchaseSucceeded | PurchaseFailed

  datatype Handled = Handled(view: PurchaseView, notice: Notice)

  /** `handlePurchase`: with the debit's outcome and the generator's sixteen
      draws supplied, the dialog state after the handler settles. */
  function HandlePurchase(v: PurchaseView, spent: SpendOutcome, picks: seq<nat>): (h: Handled)
    requires RedemptionKey.ValidPicks(picks)
    ensures !h.view.isSubmitting
    ensures spent == Debited ==> h.view.keyGenerated == Some(RedemptionKey.GenerateKey(picks))
    ensures spent != Debited ==> h.view.keyGenerated == v.keyGenerated
    ensures h.notice == PurchaseSucceeded <==> spent == Debited
    ensures h.notice == PurchaseFailed <==> spent == Threw
  {
    match spent
    case Debited =>
      Handled(PurchaseView(false, Some(RedemptionKey.GenerateKey(picks))), PurchaseSucceeded)
    case Declined => Handled(v.(isSubmitting := false), NoNotice)
    case Threw => Handled(v.(isSubmitting := false), PurchaseFailed)
  }

  /** Submitting the form: the phone schema runs first; the handler (and so
      the debit) only runs on a valid number. */
  datatype Submission = Rejected(issues: seq<PhoneIssue>) | Submitted(handled: Handled)

  function Submit(v: PurchaseView, phone: string, spent: SpendOutcome, picks: seq<nat>): (r: Submission)
    requires RedemptionKey.ValidPicks(picks)
    ensures r.Rejected? <==> !ValidPhone(phone)
    ensures r.Rejected? ==> r.issues == PhoneIssues(phone) && |r.issues| > 0
    ensures r.Submitted? ==> !r.handled.view.isSubmitting
    ensures r.Submitted? && spent == Debited ==> r.handled.view.keyGenerated == Some(RedemptionKey.GenerateKey(picks))
    ensures r.Submitted? && spent != Debited ==> r.handled.view.keyGenerated == v.keyGenerated
    ensures r.Submitted? ==> (r.handled.notice == PurchaseSucceeded <==> spent == Debited)
                             && (r.handled.notice == PurchaseFailed <==> spent == Threw)
  {
    if ValidPhone(phone) then Submitted(HandlePurchase(v, spent, picks))
    else Rejected(PhoneIssues(phone))
  }

  /** From a freshly opened dialog, a key appears only after a valid phone
      number was submitted and the debit succeeded, and then it is a
      well-formed `XXXX-XXXX-XXXX-XXXX` key. */
  lemma KeyOnlyOnDebit(phone: string, spent: SpendOutcome, picks: seq<nat>)
    requires RedemptionKey.ValidPicks(picks)
    ensures var r := Submit(InitialView, phone, spent, picks);
            (r.Submitted? && r.handled.view.keyGenerated.Some?)
            <==> (ValidPhone(phone) && spent == Debited)
    ensures var r := Submit(InitialView, phone, spent, picks);
            r.Submitted? && r.handled.view.keyGenerated.Some? ==>
              RedemptionKey.WellFormed(r.handled.view.keyGenerated.value)
              && RedemptionKey.ParseKey(r.handled.view.keyGenerated.value) == Some(picks)
  {
    RedemptionKey.ParseGeneratedKey(picks);
  }
}

=== FILE: redemption_key.dfy ===
/**
 The redemption key handed out by a successful shop purchase: sixteen symbols
 drawn from `A`-`Z` and `0`-`9`, written in four groups of four separated by
 hyphens (`XXXX-XXXX-XXXX-XXXX`). The source draws each symbol with
 `Math.random`; here the sixteen draws are an input sequence of alphabet
 indices, so the generator is a pure function of its choices.
 */
module RedemptionKey {
  import opened Common

  /** The key alphabet, in the order the generator indexes it. */
  const Chars: string := "ABCDEFGHIJKLMNOPQRSTUVWXYZ0123456789"

  /** Number of random symbols in a key. */
  const SymbolCount: nat := 16

  /** Length of a formatted key: sixteen symbols and three hyphens. */
  const KeyLength: nat := 19

  /** Every draw indexes the alphabet. */
  predicate InAlphabet(picks: seq<nat>) {
    forall i :: 0 <= i < |picks| ==> picks[i] < |Chars|
  }

  /** One draw per symbol of the key, each an index into the alphabet, as
      `Math.floor(Math.random() * chars.length)` always yields. */
  predicate ValidPicks(picks: seq<nat>) {
    |picks| == SymbolCount && InAlphabet(picks)
  }

  /** The key as it stands after the first `n` iterations of the generator's
      loop: iteration `i` appends a hyphen when `i > 0 && i % 4 == 0`, then
      the chosen symbol. */
  function KeyAfter(picks: seq<nat>, n: nat): (k: string)
    requires n <= |picks| && InAlphabet(picks)
    ensures |k| == if n == 0 then 0 else SymbolPos(n - 1) + 1
  {
    if n == 0 then ""
    else
      var i := n - 1;
      KeyAfter(picks, i) + (if i > 0 && i % 4 == 0 then "-" else "") + [Chars[picks[i]]]
  }

  /** `generateRandomKey`, with its sixteen random draws supplied as `picks`:
      a nineteen-character key of the shape `XXXX-XXXX-XXXX-XXXX`. Where each
      draw lands is stated by `FullKeyShape`. */
  function GenerateKey(picks: seq<nat>): (k: string)
    requires ValidPicks(picks)
    ensures |k| == KeyLength
    ensures WellFormed(k)
  {
    FullKeyShape(picks);
    KeyAfter(picks, SymbolCount)
  }

  /** Output position of the `i`-th symbol: one hyphen precedes every
      completed group of four. */
  function SymbolPos(i: nat): nat {
    i + i / 4
  }

  /** The chosen symbols, in selection order. */
  function Symbols(picks: seq<nat>): (s: string)
    requires InAlphabet(picks)
    ensures |s| == |picks|
  {
    seq(|picks|, i requires 0 <= i < |picks| => Chars[picks[i]])
  }

  /** The key with every hyphen removed. */
  function StripHyphens(s: string): (r: string)
    ensures |r| <= |s|
    ensures '-' !in r
  {
    if |s| == 0 then ""
    else if s[0] == '-' then StripHyphens(s[1..])
    else [s[0]] + StripHyphens(s[1..])
  }

  /** The position of an alphabet character within `Chars`; 36 for any other
      character. */
  function IndexOf(c: char): nat {
    if 'A' <= c <= 'Z' then (c as int) - ('A' as int)
    else if '0' <= c <= '9' then (c as int) - ('0' as int) + 26
    else |Chars|
  }

  /** A string of the shape `XXXX-XXXX-XXXX-XXXX` over the key alphabet. */
  predicate WellFormed(k: string) {
    && |k| == KeyLength
    && (forall j :: 0 <= j < |k| ==> (k[j] == '-' <==> j % 5 == 4))
    && (forall j :: 0 <= j < |k| && j % 5 != 4 ==> k[j] in Chars)
  }

  /** Recovers the sixteen draws from a key; None when the string is not a
      well-formed key. The inverse of GenerateKey. */
  function ParseKey(k: string): (r: Option<seq<nat>>)
    ensures r.Some? <==> WellFormed(k)
  {
    if WellFormed(k) then
      Some(seq(SymbolCount, i requires 0 <= i < SymbolCount => IndexOf(k[SymbolPos(i)])))
    else None
  }

  /** The alphabet holds 36 distinct symbols and IndexOf inverts indexing. */
  lemma AlphabetIndex()
    ensures |Chars| == 36
    ensures forall k :: 0 <= k < |Chars| ==> IndexOf(Chars[k]) == k
    ensures forall k :: 0 <= k < |Chars| ==> Chars[k] != '-'
    ensures forall c :: c in Chars ==> IndexOf(c) < |Chars| && Chars[IndexOf(c)] == c
  {
    forall k | 0 <= k < |Chars|
      ensures IndexOf(Chars[k]) == k && Chars[k] != '-'
    {
      if k < 26 {
        assert Chars[k] == ('A' as int + k) as char;
      } else {
        assert Chars[k] == ('0' as int + (k - 26)) as char;
      }
    }
  }

  /** Symbol positions increase with the symbol index. */
  lemma SymbolPosMonotone(a: nat, b: nat)
    requires a < b
    ensures SymbolPos(a) < SymbolPos(b)
  {
    assert a / 4 <= b / 4;
  }

  /** Symbol positions avoid the hyphen positions, and every other position
      holds the symbol whose index is the position minus the hyphens before
      it. */
  lemma SymbolPosCovers(i: nat, j: nat)
    ensures SymbolPos(i) % 5 != 4
    ensures j % 5 != 4 ==> SymbolPos(j - j / 5) == j
  {
    var q := i / 4;
    assert i == 4 * q + i % 4;
    assert SymbolPos(i) == 5 * q + i % 4;
    if j % 5 != 4 {
      var m := j / 5;
      assert j == 5 * m + j % 5;
      assert (j - m) / 4 == m;
    }
  }

  /** The hyphen written before symbol `i` (a multiple of four) lands at a
      position congruent to 4 modulo 5. */
  lemma HyphenBefore(i: nat)
    requires i > 0 && i % 4 == 0
    ensures (SymbolPos(i - 1) + 1) % 5 == 4
  {
    var m := i / 4;
    assert i == 4 * m;
    assert (i - 1) / 4 == m - 1;
    assert SymbolPos(i - 1) + 1 == 5 * (m - 1) + 4;
  }

  /** Within a key, the positions congruent to 4 modulo 5 are 4, 9 and 14. */
  lemma HyphenSlots(j: nat)
    requires j < KeyLength
    ensures j % 5 == 4 <==> (j == 4 || j == 9 || j == 14)
  {
  }

  /** Each symbol chosen in the first `n` iterations stays at its output
      position. */
  lemma {:induction false} KeyAfterSymbols(picks: seq<nat>, n: nat)
    requires n <= |picks| && InAlphabet(picks)
    ensures forall i :: 0 <= i < n ==> SymbolPos(i) < |KeyAfter(picks, n)| && KeyAfter(picks, n)[SymbolPos(i)] == Chars[picks[i]]
  {
    if n > 0 {
      var i := n - 1;
      KeyAfterSymbols(picks, i);
      var prev := KeyAfter(picks, i);
      var tail: string := (if i > 0 && i % 4 == 0 then "-" else "") + [Chars[picks[i]]];
      var k := KeyAfter(picks, n);
      assert k == prev + tail;
      forall j | 0 <= j < n
        ensures SymbolPos(j) < |k| && k[SymbolPos(j)] == Chars[picks[j]]
      {
        if j < i {
          SymbolPosMonotone(j, i);
          assert SymbolPos(j) < |prev|;
        } else {
          assert SymbolPos(j) == |k| - 1;
        }
      }
    }
  }

  /** Hyphens in the partial key sit exactly at the positions congruent to 4
      modulo 5. */
  lemma {:induction false} KeyAfterHyphens(picks: seq<nat>, n: nat)
    requires n <= |picks| && InAlphabet(picks)
    ensures forall j :: 0 <= j < |KeyAfter(picks, n)| ==> (KeyAfter(picks, n)[j] == '-' <==> j % 5 == 4)
  {
    if n > 0 {
      var i := n - 1;
      KeyAfterHyphens(picks, i);
      var prev := KeyAfter(picks, i);
      var sep: string := if i > 0 && i % 4 == 0 then "-" else "";
      var c := Chars[picks[i]];
      assert c != '-' by {
        AlphabetIndex();
      }
      var k := KeyAfter(picks, n);
      assert k == prev + sep + [c];
      assert |k| - 1 == SymbolPos(i);
      forall j | 0 <= j < |k|
        ensures k[j] == '-' <==> j % 5 == 4
      {
        if j < |prev| {
          assert k[j] == prev[j];
        } else if j == |k| - 1 {
          SymbolPosCovers(i, 0);
        } else {
          assert j == |prev| && sep == "-";
          HyphenBefore(i);
        }
      }
    }
  }

  /** The key built from all sixteen draws has length 19 and the shape
      `XXXX-XXXX-XXXX-XXXX`: hyphens at positions 4, 9 and 14 and nowhere
      else, every other character from the alphabet, symbol `i` at position
      `i + i / 4`. */
  lemma FullKeyShape(picks: seq<nat>)
    requires ValidPicks(picks)
    ensures |KeyAfter(picks, SymbolCount)| == KeyLength
    ensures forall j :: 0 <= j < KeyLength ==> (KeyAfter(picks, SymbolCount)[j] == '-' <==> j == 4 || j == 9 || j == 14)
    ensures forall i :: 0 <= i < SymbolCount ==> KeyAfter(picks, SymbolCount)[SymbolPos(i)] == Chars[picks[i]]
    ensures WellFormed(KeyAfter(picks, SymbolCount))
  {
    KeyAfterSymbols(picks, SymbolCount);
    KeyAfterHyphens(picks, SymbolCount);
    AlphabetIndex();
    var k := KeyAfter(picks, SymbolCount);
    forall j | 0 <= j < KeyLength
      ensures j % 5 == 4 <==> (j == 4 || j == 9 || j == 14)
    {
      HyphenSlots(j);
    }
    forall j | 0 <= j < KeyLength && j % 5 != 4
      ensures k[j] in Chars
    {
      SymbolPosCovers(0, j);
      assert k[SymbolPos(j - j / 5)] == Chars[picks[j - j / 5]];
    }
  }

  /** Removing hyphens distributes over concatenation. */
  lemma {:induction false} StripHyphensAppend(a: string, b: string)
    ensures StripHyphens(a + b) == StripHyphens(a) + StripHyphens(b)
  {
    if |a| > 0 {
      assert (a + b)[1..] == a[1..] + b;
      StripHyphensAppend(a[1..], b);
    } else {
      assert a + b == b;
    }
  }

  /** Removing the hyphens from a partial key leaves the symbols chosen so
      far, in selection order. */
  lemma {:induction false} StripKeyAfter(picks: seq<nat>, n: nat)
    requires n <= |picks| && InAlphabet(picks)
    ensures StripHyphens(KeyAfter(picks, n)) == Symbols(picks[..n])
  {
    if n > 0 {
      var i := n - 1;
      StripKeyAfter(picks, i);
      var prev := KeyAfter(picks, i);
      var sep: string := if i > 0 && i % 4 == 0 then "-" else "";
      var c := Chars[picks[i]];
      assert c != '-' by {
        AlphabetIndex();
      }
      assert KeyAfter(picks, n) == (prev + sep) + [c];
      StripHyphensAppend(prev + sep, [c]);
      StripHyphensAppend(prev, sep);
      assert StripHyphens(sep) == "";
      assert StripHyphens([c]) == [c];
      var s := Symbols(picks[..n]);
      assert s == Symbols(picks[..i]) + [c] by {
        assert picks[..n][..i] == picks[..i];
      }
    }
  }

  /** Removing the hyphens from a generated key yields exactly the sixteen
      chosen symbols, in selection order. */
  lemma StripGeneratedKey(picks: seq<nat>)
    requires ValidPicks(picks)
    ensures StripHyphens(GenerateKey(picks)) == Symbols(picks)
    ensures |StripHyphens(GenerateKey(picks))| == SymbolCount
  {
    StripKeyAfter(picks, SymbolCount);
    assert picks[..SymbolCount] == picks;
  }

  /** Parsing a generated key recovers the draws that produced it. */
  lemma ParseGeneratedKey(picks: seq<nat>)
    requires ValidPicks(picks)
    ensures ParseKey(GenerateKey(picks)) == Some(picks)
  {
    AlphabetIndex();
    FullKeyShape(picks);
    var r := ParseKey(GenerateKey(picks));
    assert r.Some?;
    assert r.value == picks;
  }

  /** Every well-formed key is generated by exactly the draws it parses to,
      so GenerateKey is a bijection between valid draws and well-formed
      keys. */
  lemma GenerateParsedKey(k: string, picks: seq<nat>)
    requires ParseKey(k) == Some(picks)
    ensures ValidPicks(picks)
    ensures GenerateKey(picks) == k
  {
    AlphabetIndex();
    assert ValidPicks(picks) by {
      forall i | 0 <= i < SymbolCount
        ensures picks[i] < |Chars|
      {
        assert SymbolPos(i) % 5 != 4;
      }
    }
    var g := GenerateKey(picks);
    FullKeyShape(picks);
    forall j | 0 <= j < KeyLength
      ensures g[j] == k[j]
    {
      if j % 5 != 4 {
        var i := j - j / 5;
        assert SymbolPos(i) == j;
      }
    }
  }

  /** Distinct draws never produce the same key. */
  lemma GenerateKeyInjective(p: seq<nat>, q: seq<nat>)
    requires ValidPicks(p) && ValidPicks(q)
    requires GenerateKey(p) == GenerateKey(q)
    ensures p == q
  {
    ParseGeneratedKey(p);
    ParseGeneratedKey(q);
  }
}

=== FILE: session.dfy ===
/**
 The session state container shared by every view: the signed-in user (or
 none), a loading flag, and the copy of the user persisted in browser
 storage under `spdm_user`. Login and signup are local mocks that build a
 user record; the random part of the user id is an input here.
 */
module Session {
  import opened Common

  /** The signed-in user. Coins are a JavaScript number; the model keeps
      them as an unbounded integer. */
  datatype User = User(id: string, username: string, email: string, coins: int)

  /** The container's state; `stored` is the persisted entry (None when the
      key is absent from storage). */
  datatype State = State(user: Option<User>, loading: bool, stored: Option<User>)

  /** The user and the persisted copy agree. */
  predicate Consistent(s: State) {
    s.user == s.stored
  }

  /** Prefix every mock user id carries. */
  const IdPrefix: string := "user_"

  /** `email.split('@')[0]`: the part of the email before its first `@`, or
      the whole email when it has none. */
  function EmailLocalPart(email: string): (local: string)
    ensures local <= email
    ensures '@' !in local
    ensures |local| < |email| ==> email[|local|] == '@'
  {
    if |email| == 0 || email[0] == '@' then ""
    else [email[0]] + EmailLocalPart(email[1..])
  }

  /** The mount effect: a persisted user, if any, becomes the current user,
      and loading ends. */
  function Mount(stored: Option<User>): (s: State)
    ensures Consistent(s) && !s.loading
    ensures s.stored == stored
  {
    State(stored, false, stored)
  }

  /** `login(email, _)`: a fresh user named after the email's local part,
      with no coins, is set and persisted; loading ends. */
  function Login(s: State, email: string, idSuffix: string): (t: State)
    ensures t.user.Some? && Consistent(t) && !t.loading
    ensures t.user.value.username == EmailLocalPart(email)
    ensures t.user.value.email == email && t.user.value.coins == 0
    ensures IdPrefix <= t.user.value.id
  {
    var u := User(IdPrefix + idSuffix, EmailLocalPart(email), email, 0);
    State(Some(u), false, Some(u))
  }

  /** `signup(email, username, _)`: as Login, but with the given username. */
  function Signup(s: State, email: string, username: string, idSuffix: string): (t: State)
    ensures t.user.Some? && Consistent(t) && !t.loading
    ensures t.user.value.username == username
    ensures t.user.value.email == email && t.user.value.coins == 0
    ensures IdPrefix <= t.user.value.id
  {
    var u := User(IdPrefix + idSuffix, username, email, 0);
    State(Some(u), false, Some(u))
  }

  /** `logout`: the user is cleared and the persisted entry removed; the
      loading flag is untouched. */
  function Logout(s: State): (t: State)
    ensures t.user.None? && t.stored.None? && Consistent(t)
    ensures t.loading == s.loading
  {
    State(None, s.loading, None)
  }

  /** `updateUserCoins(amount)`: with a user present, the coins move by
      `amount` and the result is persisted; identity fields are kept. With
      no user it does nothing. */
  function UpdateUserCoins(s: State, amount: int): (t: State)
    ensures s.user.None? ==> t == s
    ensures s.user.Some? ==> t.user.Some? && Consistent(t) && t.loading == s.loading
    ensures s.user.Some? ==> t.user.value.coins == s.user.value.coins + amount
    ensures s.user.Some? ==> t.user.value.id == s.user.value.id
                             && t.user.value.username == s.user.value.username
                             && t.user.value.email == s.user.value.email
  {
    match s.user
    case None => s
    case Some(u) =>
      var v := u.(coins := u.coins + amount);
      State(Some(v), s.loading, Some(v))
  }

  /** A caller's request to the container. */
  datatype Action =
    | LoginAs(email: string, idSuffix: string)
    | SignupAs(email: string, username: string, idSuffix: string)
    | LogoutNow
    | AdjustCoins(amount: int)

  function Step(s: State, a: Action): State {
    match a
    case LoginAs(email, suffix) => Login(s, email, suffix)
    case SignupAs(email, name, suffix) => Signup(s, email, name, suffix)
    case LogoutNow => Logout(s)
    case AdjustCoins(amount) => UpdateUserCoins(s, amount)
  }

  /** The state after a sequence of requests, in order. */
  function Run(s: State, actions: seq<Action>): State
    decreases |actions|
  {
    if |actions| == 0 then s else Run(Step(s, actions[0]), actions[1..])
  }

  /** Every request keeps the persisted copy equal to the user, so from a
      mounted container storage and memory never disagree. */
  lemma {:induction false} RunKeepsConsistent(s: State, actions: seq<Action>)
    requires Consistent(s)
    ensures Consistent(Run(s, actions))
    decreases |actions|
  {
    if |actions| > 0 {
      RunKeepsConsistent(Step(s, actions[0]), actions[1..]);
    }
  }

  /** Every run from mount ends consistent. */
  lemma MountedRunConsistent(stored: Option<User>, actions: seq<Action>)
    ensures Consistent(Run(Mount(stored), actions))
  {
    RunKeepsConsistent(Mount(stored), actions);
  }

  /** Sum of the coin adjustments in a run. */
  function CoinDelta(actions: seq<Action>): int {
    if |actions| == 0 then 0
    else (if actions[0].AdjustCoins? then actions[0].amount else 0) + CoinDelta(actions[1..])
  }

  /** A run of coin adjustments on a signed-in user changes nothing but the
      coins, and moves them by the sum of the adjustments; with no user the
      run changes nothing at all. */
  lemma {:induction false} AdjustmentsAccumulate(s: State, actions: seq<Action>)
    requires forall i :: 0 <= i < |actions| ==> actions[i].AdjustCoins?
    ensures s.user.None? ==> Run(s, actions) == s
    ensures s.user.Some? && |actions| > 0 ==>
              Run(s, actions).user == Some(s.user.value.(coins := s.user.value.coins + CoinDelta(actions)))
              && Consistent(Run(s, actions))
    ensures Run(s, actions).loading == s.loading
    decreases |actions|
  {
    if |actions| > 0 {
      AdjustmentsAccumulate(Step(s, actions[0]), actions[1..]);
    }
  }
}
